=== FILE: README.md ===
# nalgo-tube: the YouTube adapter, modelled in Dafny

nalgo-tube is a small video-search front end over the YouTube Data API v3.
The app's only decision-carrying logic is the pure reshaping between that API's
loosely typed JSON and the app's own records. It exists in two variants, and
this project models both:

- **Server adapter** (`lib/youtube.ts`). `buildUrl` builds the request.
  `searchVideos` drops items without a truthy `videoId` and picks the thumbnail
  high → medium → default → `""`. `getVideoDetail` takes the first item or
  returns `null` when there is none. Both throw on a non-ok status.
- **Client page** (`app/page.tsx`). `searchVideosClient` maps every item
  without filtering. A missing field becomes `''`. The thumbnail is the medium
  url or `null`. A missing key or a non-ok status gives `[]`. The page also
  trims the `q` route parameter, skips the search when the trimmed query is
  empty, and `handleSubmit` pushes `/` or `/?q=…`.

The two variants differ: the server falls back to `""` when no thumbnail url is
truthy, the client asks for 10 results where the server asks for 25, and the
client does not filter id-less items.

The JSON is a datatype in which every field is an `Option`. The network call
is a function parameter, `fetch: Url -> Fetched<Body>`. It maps the request
URL, taken as parsed (origin, path, parameter list), to a response (status and
parsed body) or to `NetworkFailure`. `Href` gives the string form. Throwing is
`Err`. The form-urlencoded percent-encoding of one string is the parameter
`enc`.

Modules:

- `Common`: `Option` and `Result`, plus JavaScript truthiness, `??` and `||` on
  possibly missing strings.
- `JsText`: `String.prototype.trim`, as defined in section 22.1.3.32 of
  ECMA-262.
- `SearchParams`: the WHATWG URL Standard pieces the code uses. These are the
  URLSearchParams list and its `get`, `set` and `delete`; the
  application/x-www-form-urlencoded serializer; and resolving a path
  reference against a base URL.
- `YouTubeApi`: the response shapes and the fetch outcome.
- `YouTubeServer`: `lib/youtube.ts`. `buildUrl`, `searchVideos` and `getVideoDetail` each come twice: as written, where the request path drops `/youtube/v3` (see Findings), and corrected, where the request stays under it.
- `ClientPage`: `app/page.tsx`.

## Model

| member | source | states |
|---|---|---|
| SearchParams.Set | lib/youtube.ts:51-55 | `searchParams.set`: afterwards the name maps to the new value and appears exactly once; every other name's `get` is unchanged; nothing but the new pair is added; a name not yet present is appended at the end |
| SearchParams.SetKeepsDistinct | lib/youtube.ts:51-55 | `set` keeps the parameter names pairwise distinct |
| SearchParams.SetKeepsNamesInPlace | lib/youtube.ts:55 | on a list with distinct names, overriding a name that is already present keeps every name in its place |
| SearchParams.SetAll | lib/youtube.ts:51-53 | `Object.entries(params).forEach(... set ...)`: the last entry's value is what its name reads back; with distinct entry names every entry reads back its own value; a name no entry carries reads back as before |
| SearchParams.SetAllAppends | lib/youtube.ts:51-53 | setting each entry of a record (distinct names) in turn yields exactly those entries, in entry order |
| SearchParams.Serialize | app/page.tsx:108-110 | the serialized parameter string is empty exactly when there are no pairs; a single pair serializes to `name=value` |
| SearchParams.SerializeConcat | app/page.tsx:43 | serializing two non-empty lists back to back is their serializations joined by `&` |
| SearchParams.Href | lib/youtube.ts:57 | `url.toString()`: the string starts with origin and path; `?` follows them exactly when the query list is non-empty, and the rest of the string is the serialized list |
| SearchParams.Resolve | lib/youtube.ts:49 | `new URL(ref, base)`: keeps the base origin; a reference starting with `/` replaces the whole base path; a relative reference lands beneath a base path that ends in `/` |
| YouTubeServer.BuildQuery | lib/youtube.ts:48-58 | the final query holds every caller pair plus `key = apiKey`; `key` is set last, so it overrides a caller's `key` and keeps that name's place; otherwise it is appended; names stay distinct |
| YouTubeServer.RequestAsWritten | lib/youtube.ts:48-58 | `buildUrl` as written: a path starting with `/` becomes the whole request path; the key is always set; every other parameter reads back as the caller gave it |
| YouTubeServer.AsWrittenSearchMissesApiPath | lib/youtube.ts:49 | the search request as written goes to `/search` on the host, not to `/youtube/v3/search` |
| YouTubeServer.Request | lib/youtube.ts:48-58 | `buildUrl` corrected: the request path is `/youtube/v3/` followed by the endpoint; the key is set; every other parameter reads back as the caller gave it |
| YouTubeServer.SearchRequestCarriesParams | lib/youtube.ts:61-66 | the search request goes to `/youtube/v3/search` with exactly `part=snippet`, `type=video`, `maxResults=25`, `q` (verbatim) and then `key` |
| YouTubeServer.DetailRequestCarriesParams | lib/youtube.ts:105-108 | the detail request goes to `/youtube/v3/videos` with exactly `part=snippet`, `id` and then `key` |
| YouTubeServer.RequestCarries | lib/youtube.ts:48-58 | with no caller-supplied `key`, the corrected request is the endpoint under `/youtube/v3/` and its query is the caller's pairs in order with `key` appended |
| YouTubeServer.ThumbnailUrl | lib/youtube.ts:88-92 | the thumbnail is the high url if truthy, else the medium url if truthy, else the default url if truthy, else `""`; it is `""` exactly when none of the three is truthy (an empty url falls through) |
| YouTubeServer.KeepPlayable | lib/youtube.ts:80-81 | the filter keeps exactly the input items whose `id.videoId` is present and non-empty, and is no longer than its input |
| YouTubeServer.KeepPlayableDistributes | lib/youtube.ts:80-81 | filtering a concatenation is the concatenation of the filtered parts, so the kept items keep their original order |
| YouTubeServer.ToSearchVideo | lib/youtube.ts:82-100 | each output record has a non-empty `videoId` equal to `id.videoId`; title, channel and date are copied unchanged; the thumbnail follows the fallback |
| YouTubeServer.ToSearchVideos | lib/youtube.ts:82-101 | the map yields one record per kept item, in the same order, each copying its item |
| YouTubeServer.ToSearchVideosDistributes | lib/youtube.ts:82-101 | mapping a concatenation is the concatenation of the mapped parts |
| YouTubeServer.ShapeSearch | lib/youtube.ts:74-101 | a response without `items` gives `[]`; otherwise the result is the playable items mapped one-to-one in order; it fails with a TypeError exactly when an item lacks its `id` object or a kept item lacks its `snippet` |
| YouTubeServer.ShapeSearchConcat | lib/youtube.ts:80-101 | when neither half throws a TypeError, the result for `a + b` is the result for `a` followed by the result for `b` (order preservation over the whole response) |
| YouTubeServer.SearchVideosAsWritten | lib/youtube.ts:60-101 | `searchVideos` as written, fetching `buildUrl("/search", ...)`: a rejected fetch and a non-ok status each give their own error, carrying the status; any success (even `[]`) comes from an ok response; an ok response without `items` gives `[]`, and one with `items` gives exactly the shaped items |
| YouTubeServer.SearchVideos | lib/youtube.ts:60-101 | the same outcome contract for `searchVideos` sending the corrected request under `/youtube/v3/` |
| YouTubeServer.AsWrittenSearchReadsAnotherResource | lib/youtube.ts:49 | on a network that answers 404 on `/search` and an empty ok body elsewhere, the as-written search throws the 404 while the corrected one returns `[]` |
| YouTubeServer.ShapeDetail | lib/youtube.ts:116-133 | not found (`null`) exactly when `items` is missing or empty; otherwise the four snippet fields of `items[0]`; a TypeError exactly when that item lacks its snippet |
| YouTubeServer.DetailIgnoresLaterItems | lib/youtube.ts:118 | only `items[0]` matters; later items are ignored |
| YouTubeServer.GetVideoDetailAsWritten | lib/youtube.ts:104-134 | `getVideoDetail` as written, fetching `buildUrl("/videos", ...)`: a rejected fetch and a non-ok status each give their own error, carrying the status, distinct from not found; not found exactly when the response is ok and has no items; an ok response gives exactly the shaped first item |
| YouTubeServer.GetVideoDetail | lib/youtube.ts:104-134 | the same outcome contract for `getVideoDetail` sending the corrected request under `/youtube/v3/` |
| JsText.TrimStart | app/page.tsx:67 | drops exactly the leading WhiteSpace/LineTerminator code points |
| JsText.TrimEnd | app/page.tsx:67 | drops exactly the trailing WhiteSpace/LineTerminator code points |
| JsText.Trim | app/page.tsx:67 | the trimmed string is empty exactly when the input is all whitespace; otherwise it neither starts nor ends with whitespace |
| JsText.TrimIsSlice | app/page.tsx:67 | the trimmed string is a contiguous slice of the input, with only whitespace outside it |
| JsText.TrimIdempotent | app/page.tsx:107 | trimming twice is trimming once |
| ClientPage.ClientRequestHref | app/page.tsx:34-44 | the client's URL string is the hard-coded search endpoint, `?`, then the serialized parameters |
| ClientPage.ClientAndServerSearchSameEndpoint | app/page.tsx:34-44 | the client request and the corrected server search request share origin and path; the client sends `key`, `part=snippet`, `q`, `maxResults=10`, `type=video` in that order, the server `part=snippet`, `type=video`, `maxResults=25`, `q`, `key` — the same pairs apart from `maxResults` |
| ClientPage.ToVideo | app/page.tsx:53-59 | a missing `videoId`, title, channel or date becomes `''` and a present one is kept as is; the thumbnail is the medium url or `null` |
| ClientPage.ToVideos | app/page.tsx:53 | the client mapping is length-preserving: one output per item, same order, nothing filtered |
| ClientPage.SearchVideosClient | app/page.tsx:28-60 | `[]` when the key is missing or empty (whatever the network would do) and on a non-ok status; it rejects only when fetch does; an ok response without `items` gives `[]`; otherwise every item is mapped in order |
| ClientPage.ClientThumbnailIgnoresOtherSizes | app/page.tsx:56 | the high and default thumbnails never affect the client thumbnail |
| ClientPage.ClientKeepsWhatServerDrops | app/page.tsx:54 | an item whose `id` object has no non-empty `videoId` is dropped by the server (the response shapes to `[]`) but mapped by the client to id `''` |
| ClientPage.ClientMapsWhatServerRejects | app/page.tsx:54 | an item with no `id` object makes the server throw a TypeError, while the client maps it to id `''` |
| ClientPage.VariantsAgreeOnCompleteItem | app/page.tsx:53-59 | on a complete item both mappers agree on id, title, channel and date, and on the thumbnail when medium is the best truthy size |
| ClientPage.HasQueryIffNotBlank | app/page.tsx:66-73 | `hasQuery` holds exactly when `q` is present and not all whitespace |
| ClientPage.StartEffectAsWritten | app/page.tsx:75-86 | a search is issued exactly when there is a query, and it is for the trimmed query, with loading on, the error cleared and the results kept; without a query the results and error are cleared but `loading` is left as it was |
| ClientPage.StartEffect | app/page.tsx:75-86 | corrected effect: without a query the page returns to the initial state (no results, no error, not loading) and no search is issued; with one, the search is for the trimmed query, loading is on, the error cleared and the results kept |
| ClientPage.Settle | app/page.tsx:86-99 | a cancelled completion changes nothing; otherwise it commits the videos or the failure message, and loading ends |
| ClientPage.Step | app/page.tsx:75-104 | a navigation records the new parameter; exactly when the trimmed query changes it re-runs the effect, taking the page the effect leaves and the next run number (so every earlier run is cancelled), and otherwise leaves the page untouched; a completion keeps the parameter and run number, one from the current run settles the page, and one from an earlier run changes nothing |
| ClientPage.RunKeepsNotStuck | app/page.tsx:75-104 | with the corrected effect, every navigation or completion keeps "loading implies there is a query" |
| ClientPage.CorrectedSessionNeverStuck | app/page.tsx:75-104 | with the corrected effect, no sequence of navigations and completions leaves the page loading without a query |
| ClientPage.AsWrittenSessionGetsStuck | app/page.tsx:76-80 | as written, searching "lofi" and then clearing the query before the search completes leaves the page loading with no query |
| ClientPage.SubmitRoute | app/page.tsx:106-112 | the route is `/` exactly when the trimmed form value is empty; otherwise it is `/?` followed by the encoding of the one pair `q = trimmed value` |
| ClientPage.SubmitThenLoadSearchesTrimmedValue | app/page.tsx:106-112 | landing on the pushed route searches exactly the trimmed form value, and nothing for a blank form |

## Left out

- The `fetch` calls, `response.json()`, `res.text()` and `console` logging are network I/O. They are the `fetch` parameter. A body that is not JSON, or not an object, is not modelled.
- The module-load `throw` when `YOUTUBE_API_KEY` is unset is environment configuration. The server's `apiKey` is a plain parameter.
- `formatDate` is left out because it relies on `Date` parsing and `ko-KR` locale formatting.
- `he.decode` is a foreign HTML-entity library and is left out.
- JSX rendering and the watch page (`app/watch/[id]/page.tsx`) are presentation. They only call the modelled operations.
- capacitor.config.ts holds static packaging data with no logic.
- Percent-encoding is the opaque parameter `enc`, because `URLSearchParams` encoding is a platform library. So decoding the pushed route back to `q` is not modelled. `SubmitThenLoadSearchesTrimmedValue` takes that round trip as given.
- Asynchronous scheduling and React re-render timing are left out. Cancellation is only the effect-run number a completion belongs to: a completion from an earlier run is ignored.
- JSON field values are taken to be strings (or objects where nested). A number or boolean in a string field is not modelled. A `null` field and a missing field are both `None`.
- SearchParams.Resolve: only handles non-empty references made of letters, digits, `-`, `_` and `/` that do not start with `//`. These are the only references the code passes. Dot segments, queries, fragments and percent-encoding of the path are not modelled.
- YouTubeServer.BuildQuery: takes the record's entries in the order given. `Object.entries` would put integer-like keys first, but no caller passes one.
- JsText.Trim: works on Unicode scalar values, not UTF-16 code units. The two agree here because every code point `trim` strips lies in the Basic Multilingual Plane.

## Findings

| source | as written | input that shows it | evidently intended | confidence | as-written member | corrected member |
|---|---|---|---|---|---|---|
| lib/youtube.ts:49 | `new URL("/search", "https://www.googleapis.com/youtube/v3")`: a reference starting with `/` replaces the base path, so every server request goes to `https://www.googleapis.com/search` (or `/videos`) | any query; the request path is `/search` | requests under `/youtube/v3/`, as the client's hard-coded URL does | high; not executed | YouTubeServer.AsWrittenSearchMissesApiPath | YouTubeServer.Request |
| app/page.tsx:76-80 | the empty-query branch of the effect clears results and error but not `loading`, and the torn-down search's `finally` is skipped by `cancelled` | open `/?q=lofi`, then submit a blank form before the search completes: the page keeps showing "searching" | `loading` reset when there is no query | medium; not executed | ClientPage.AsWrittenSessionGetsStuck | ClientPage.CorrectedSessionNeverStuck |

=== FILE: client_page.dfy ===
/**
 * The client-rendered home page: its own search call and mapper, the
 * trimming of the `q` route parameter, the state the search effect leaves
 * behind, and the route the search form pushes. Unlike the server adapter,
 * the client mapper never filters or throws on a missing field, and a
 * missing key or a non-ok status gives an empty list.
 */
module ClientPage {
  import opened Common
  import opened JsText
  import opened SearchParams
  import opened YouTubeApi
  import YouTubeServer

  datatype Video = Video(
    videoId: string,
    title: string,
    thumbnailUrl: Option<string>,
    channelTitle: string,
    publishedAt: string)

  /** The client call rejects only when `fetch` itself does. */
  datatype ClientFailure = Rejected

  // ----- searchVideosClient -----

  const ClientEndpoint := ApiOrigin + ApiPath + "/search"

  /** The `URLSearchParams` the client builds, in record order; the client asks for 10 results. */
  function ClientParams(apiKey: string, query: string): Pairs
  {
    [("key", apiKey), ("part", "snippet"), ("q", query), ("maxResults", "10"), ("type", "video")]
  }

  /** The request `searchVideosClient(query)` sends. */
  function ClientRequest(apiKey: string, query: string): Url
  {
    Url(ApiOrigin, ApiPath + "/search", ClientParams(apiKey, query))
  }

  /** The request, serialized, is the hard-coded endpoint, `?`, and the serialized parameters. */
  lemma ClientRequestHref(apiKey: string, query: string, enc: string -> string)
    ensures Href(ClientRequest(apiKey, query), enc) == ClientEndpoint + "?" + Serialize(ClientParams(apiKey, query), enc)
  {
  }

  /** The client's hard-coded path is the API path joined with the `search` endpoint. */
  lemma SearchPathJoin()
    ensures ApiPath + "/search" == ApiPath + "/" + "search"
  {
    assert "/" + "search" == "/search";
  }

  /**
   * The client and the corrected server search hit the same endpoint; the
   * client's list holds the same pairs in another order, except that it asks
   * for 10 results instead of 25.
   */
  lemma ClientAndServerSearchSameEndpoint(apiKey: string, query: string)
    ensures ClientRequest(apiKey, query).origin == YouTubeServer.SearchRequest(query, apiKey).origin
    ensures ClientRequest(apiKey, query).path == YouTubeServer.SearchRequest(query, apiKey).path
    ensures ClientRequest(apiKey, query).query
         == [("key", apiKey), ("part", "snippet"), ("q", query), ("maxResults", "10"), ("type", "video")]
    ensures YouTubeServer.SearchRequest(query, apiKey).query
         == [("part", "snippet"), ("type", "video"), ("maxResults", "25"), ("q", query), ("key", apiKey)]
  {
    YouTubeServer.SearchRequestCarriesParams(query, apiKey);
    SearchPathJoin();
  }

  /** `item.id?.videoId`. */
  function IdOf(item: SearchItem): Option<string>
  {
    match item.id
    case None => None
    case Some(id) => id.videoId
  }

  /** `item.snippet?.<field>`. */
  function SnippetText(item: SearchItem, field: SearchSnippet -> Option<string>): Option<string>
  {
    match item.snippet
    case None => None
    case Some(sn) => field(sn)
  }

  /** `item.snippet?.thumbnails`. */
  function ThumbnailsOf(item: SearchItem): Option<Thumbnails>
  {
    match item.snippet
    case None => None
    case Some(sn) => sn.thumbnails
  }

  /**
   * The `.map(...)` callback: every missing text field becomes `''`, a
   * present one (even `''`) is kept, and the thumbnail is the medium url
   * or `null`.
   */
  function ToVideo(item: SearchItem): (v: Video)
    ensures item.id.Some? && item.id.value.videoId.Some? ==> v.videoId == item.id.value.videoId.value
    ensures item.id.None? || item.id.value.videoId.None? ==> v.videoId == ""
    ensures item.snippet.None? ==> v.title == "" && v.channelTitle == "" && v.publishedAt == "" && v.thumbnailUrl.None?
    ensures item.snippet.Some? ==>
      var sn := item.snippet.value;
      && (sn.title.Some? ==> v.title == sn.title.value)
      && (sn.title.None? ==> v.title == "")
      && (sn.channelTitle.Some? ==> v.channelTitle == sn.channelTitle.value)
      && (sn.channelTitle.None? ==> v.channelTitle == "")
      && (sn.publishedAt.Some? ==> v.publishedAt == sn.publishedAt.value)
      && (sn.publishedAt.None? ==> v.publishedAt == "")
      && v.thumbnailUrl == UrlOf(sn.thumbnails, Medium)
  {
    Video(
      Coalesce(IdOf(item), ""),
      Coalesce(SnippetText(item, (sn: SearchSnippet) => sn.title), ""),
      UrlOf(ThumbnailsOf(item), Medium),
      Coalesce(SnippetText(item, (sn: SearchSnippet) => sn.channelTitle), ""),
      Coalesce(SnippetText(item, (sn: SearchSnippet) => sn.publishedAt), ""))
  }

  /** `(data.items ?? []).map(...)`: one record per item, same order, nothing dropped. */
  function ToVideos(items: seq<SearchItem>): (r: seq<Video>)
    ensures |r| == |items|
    ensures forall i :: 0 <= i < |items| ==> r[i] == ToVideo(items[i])
  {
    if |items| == 0 then []
    else [ToVideo(items[0])] + ToVideos(items[1..])
  }

  /** `searchVideosClient(query)`, with the key and the network call as parameters. */
  function SearchVideosClient(apiKey: Option<string>, query: string, fetch: Url -> Fetched<SearchResponse>)
    : (r: Result<seq<Video>, ClientFailure>)
    ensures !Truthy(apiKey) ==> r == Ok([])
    ensures Truthy(apiKey) ==>
      var f := fetch(ClientRequest(apiKey.value, query));
      && (r.Err? <==> f.NetworkFailure?)
      && (f.Response? && !IsOk(f.status) ==> r == Ok([]))
      && (f.Response? && IsOk(f.status) && f.body.items.None? ==> r == Ok([]))
      && (f.Response? && IsOk(f.status) && f.body.items.Some? ==>
            && |r.value| == |f.body.items.value|
            && forall i :: 0 <= i < |r.value| ==> r.value[i] == ToVideo(f.body.items.value[i]))
  {
    if !Truthy(apiKey) then Ok([])
    else
      match fetch(ClientRequest(apiKey.value, query))
      case NetworkFailure => Err(Rejected)
      case Response(status, body) =>
        if !IsOk(status) then Ok([])
        else Ok(ToVideos(Coalesce(body.items, [])))
  }

  /** The client thumbnail reads only the medium size: the high and default sizes never matter. */
  lemma ClientThumbnailIgnoresOtherSizes(item: SearchItem, sn: SearchSnippet, high: Option<Thumbnail>, default: Option<Thumbnail>)
    requires item.snippet == Some(sn) && sn.thumbnails.Some?
    ensures ToVideo(item).thumbnailUrl
         == ToVideo(item.(snippet := Some(sn.(thumbnails := Some(sn.thumbnails.value.(high := high, default := default)))))).thumbnailUrl
  {
  }

  /**
   * An item whose `id` object has no non-empty `videoId` is dropped by the
   * server adapter (its snippet is never read) but kept, with id `''`, by the
   * client.
   */
  lemma ClientKeepsWhatServerDrops(item: SearchItem)
    requires item.id.Some? && !Truthy(item.id.value.videoId)
    ensures YouTubeServer.ShapeSearch(SearchResponse(Some([item]))) == Ok([])
    ensures ToVideos([item]) == [ToVideo(item)] && ToVideo(item).videoId == ""
  {
    assert YouTubeServer.KeepPlayable([item]) == [];
  }

  /**
   * An item with no `id` object at all makes the server adapter throw a
   * TypeError, while the client maps it to id `''`.
   */
  lemma ClientMapsWhatServerRejects(item: SearchItem)
    requires item.id.None?
    ensures YouTubeServer.ShapeSearch(SearchResponse(Some([item]))) == Err(YouTubeServer.Malformed)
    ensures ToVideos([item]) == [ToVideo(item)] && ToVideo(item).videoId == ""
  {
    assert [item][0] == item;
  }

  /**
   * On an item with a playable id and every snippet field present, both
   * mappers agree on id, title, channel and date; they agree on the
   * thumbnail when the medium url is the best truthy one.
   */
  lemma VariantsAgreeOnCompleteItem(item: SearchItem)
    requires YouTubeServer.Shapeable(item)
    requires item.snippet.value.title.Some? && item.snippet.value.channelTitle.Some? && item.snippet.value.publishedAt.Some?
    ensures var c, s := ToVideo(item), YouTubeServer.ToSearchVideo(item);
      && c.videoId == s.videoId
      && Some(c.title) == s.title
      && Some(c.channelTitle) == s.channelTitle
      && Some(c.publishedAt) == s.publishedAt
    ensures var t := item.snippet.value.thumbnails;
      !Truthy(UrlOf(t, High)) && Truthy(UrlOf(t, Medium)) ==>
        ToVideo(item).thumbnailUrl == Some(YouTubeServer.ToSearchVideo(item).thumbnailUrl)
  {
  }

  // ----- The `q` route parameter -----

  /** `(searchParams.get('q') ?? '').trim()`. */
  function TrimmedQuery(param: Option<string>): string
  {
    Trim(Coalesce(param, ""))
  }

  /** `hasQuery`: the trimmed query is non-empty. */
  predicate HasQuery(param: Option<string>)
  {
    |TrimmedQuery(param)| > 0
  }

  /** There is a query exactly when the parameter is present and not all whitespace. */
  lemma HasQueryIffNotBlank(param: Option<string>)
    ensures HasQuery(param) <==> param.Some? && !AllTrimmable(param.value)
  {
    if param.None? {
      assert TrimmedQuery(param) == Trim("");
    }
  }

  // ----- The search effect -----

  const SearchFailedMessage := "검색 중 오류가 발생했습니다."

  datatype PageState = PageState(results: seq<Video>, loading: bool, errorMsg: Option<string>)

  const InitialPage := PageState([], false, None)

  /** The state an effect run leaves, and the query it searches for, if any. */
  datatype EffectRun = EffectRun(page: PageState, search: Option<string>)

  /**
   * The effect body as written. Without a query it clears the results and
   * the error and issues no search, but leaves `loading` as it was.
   */
  function StartEffectAsWritten(p: PageState, param: Option<string>): (e: EffectRun)
    ensures e.search.Some? <==> HasQuery(param)
    ensures e.search.Some? ==> e.search.value == TrimmedQuery(param) && e.page.loading
    ensures !HasQuery(param) ==> e.page.results == [] && e.page.loading == p.loading
    ensures HasQuery(param) ==> e.page.results == p.results
    ensures e.page.errorMsg.None?
  {
    if !HasQuery(param) then EffectRun(p.(results := [], errorMsg := None), None)
    else EffectRun(p.(loading := true, errorMsg := None), Some(TrimmedQuery(param)))
  }

  /** The effect body corrected: without a query it also clears `loading`. */
  function StartEffect(p: PageState, param: Option<string>): (e: EffectRun)
    ensures e.search.Some? <==> HasQuery(param)
    ensures e.search.Some? ==> e.search.value == TrimmedQuery(param) && e.page.loading
    ensures !HasQuery(param) ==> e.page == InitialPage
    ensures HasQuery(param) ==> e.page.results == p.results
    ensures e.page.errorMsg.None?
  {
    if !HasQuery(param) then EffectRun(InitialPage, None)
    else EffectRun(p.(loading := true, errorMsg := None), Some(TrimmedQuery(param)))
  }

  /**
   * A search settling: a cancelled one (its effect was torn down) changes
   * nothing; otherwise the results or the error message are committed and
   * `loading` ends.
   */
  function Settle(p: PageState, cancelled: bool, outcome: Result<seq<Video>, ClientFailure>): (r: PageState)
    ensures cancelled ==> r == p
    ensures !cancelled ==> !r.loading
    ensures !cancelled && outcome.Ok? ==> r.results == outcome.value && r.errorMsg == p.errorMsg
    ensures !cancelled && outcome.Err? ==> r.results == p.results && r.errorMsg == Some(SearchFailedMessage)
  {
    if cancelled then p
    else
      match outcome
      case Ok(videos) => p.(results := videos, loading := false)
      case Err(_) => p.(errorMsg := Some(SearchFailedMessage), loading := false)
  }

  /**
   * The page over time: the current route parameter and the number of the
   * effect run now in force; a completion from any earlier run is cancelled.
   */
  datatype Session = Session(page: PageState, param: Option<string>, generation: nat)

  datatype Event =
    | Navigate(param: Option<string>)
    | Complete(generation: nat, outcome: Result<seq<Video>, ClientFailure>)

  function Effect(p: PageState, param: Option<string>, fixed: bool): EffectRun
  {
    if fixed then StartEffect(p, param) else StartEffectAsWritten(p, param)
  }

  /** The first render's effect run. */
  function Mount(param: Option<string>, fixed: bool): Session
  {
    Session(Effect(InitialPage, param, fixed).page, param, 0)
  }

  /**
   * One event. The effect re-runs only when its dependency, the trimmed
   * query, changes; re-running tears down the previous run.
   */
  function Step(s: Session, e: Event, fixed: bool): (r: Session)
    ensures e.Navigate? ==> r.param == e.param
    ensures e.Navigate? ==> (r.generation == s.generation <==> TrimmedQuery(e.param) == TrimmedQuery(s.param))
    ensures e.Navigate? && TrimmedQuery(e.param) == TrimmedQuery(s.param) ==> r.page == s.page
    ensures e.Complete? ==> r.param == s.param && r.generation == s.generation
    ensures e.Complete? && e.generation != s.generation ==> r == s
    ensures e.Navigate? && TrimmedQuery(e.param) != TrimmedQuery(s.param) ==>
      r.generation == s.generation + 1 && r.page == Effect(s.page, e.param, fixed).page
    ensures e.Complete? && e.generation == s.generation ==> r.page == Settle(s.page, false, e.outcome)
  {
    match e
    case Navigate(param) =>
      if TrimmedQuery(param) == TrimmedQuery(s.param) then s.(param := param)
      else Session(Effect(s.page, param, fixed).page, param, s.generation + 1)
    case Complete(g, outcome) =>
      s.(page := Settle(s.page, g != s.generation, outcome))
  }

  function Run(s: Session, events: seq<Event>, fixed: bool): Session
    decreases |events|
  {
    if |events| == 0 then s else Run(Step(s, events[0], fixed), events[1..], fixed)
  }

  /** The page is never left showing "searching" for a route that has no query. */
  predicate NotStuck(s: Session)
  {
    s.page.loading ==> HasQuery(s.param)
  }

  /** With the corrected effect, no sequence of navigations and completions leaves `loading` on without a query. */
  lemma {:induction false} CorrectedSessionNeverStuck(param: Option<string>, events: seq<Event>)
    ensures NotStuck(Run(Mount(param, true), events, true))
  {
    RunKeepsNotStuck(Mount(param, true), events);
  }

  lemma {:induction false} RunKeepsNotStuck(s: Session, events: seq<Event>)
    requires NotStuck(s)
    ensures NotStuck(Run(s, events, true))
    decreases |events|
  {
    if |events| > 0 {
      var s' := Step(s, events[0], true);
      assert NotStuck(s') by {
        match events[0]
        case Navigate(param) =>
        case Complete(g, outcome) =>
      }
      RunKeepsNotStuck(s', events[1..]);
    }
  }

  lemma LofiIsAQuery()
    ensures HasQuery(Some("lofi")) && !HasQuery(None)
  {
    assert !IsTrimmable('l') && !IsTrimmable('i');
    assert TrimStart("lofi") == "lofi";
    assert TrimEnd("lofi") == "lofi";
    assert TrimmedQuery(None) == Trim("");
  }

  /**
   * With the effect as written: searching "lofi", then clearing the query
   * before the search completes, leaves `loading` on for good, because the
   * stale completion is cancelled and the empty-query branch never resets it.
   */
  lemma AsWrittenSessionGetsStuck(outcome: Result<seq<Video>, ClientFailure>)
    ensures var s := Run(Mount(Some("lofi"), false), [Navigate(None), Complete(0, outcome)], false);
      s.page.loading && !HasQuery(s.param)
  {
    LofiIsAQuery();
    var s0 := Mount(Some("lofi"), false);
    assert s0.page.loading && s0.generation == 0;
    var s1 := Step(s0, Navigate(None), false);
    assert s1 == Session(s0.page.(results := []), None, 1);
    var s2 := Step(s1, Complete(0, outcome), false);
    assert s2 == s1;
    var events := [Navigate(None), Complete(0, outcome)];
    assert Run(s0, events, false) == Run(s1, events[1..], false);
    assert Run(s1, events[1..], false) == Run(s2, [], false);
  }

  // ----- The search form -----

  /**
   * `handleSubmit`: the trimmed form value, if non-empty, is set as `q` and
   * the serialized parameters follow `/?`; otherwise the route is `/`.
   */
  function SubmitRoute(formValue: Option<string>, enc: string -> string): (route: string)
    ensures route == "/" <==> Trim(Coalesce(formValue, "")) == ""
    ensures route != "/" ==> route == "/?" + EncodePair(("q", Trim(Coalesce(formValue, ""))), enc)
  {
    var q := Trim(Coalesce(formValue, ""));
    var params := if q != "" then Set([], "q", q) else [];
    var queryString := Serialize(params, enc);
    if queryString != "" then "/?" + queryString else "/"
  }

  /**
   * Submitting and landing on the pushed route (its `q` read back as the
   * submitted trimmed value) searches exactly that value, or nothing for a
   * blank form.
   */
  lemma SubmitThenLoadSearchesTrimmedValue(formValue: Option<string>, enc: string -> string, p: PageState)
    ensures var q := Trim(Coalesce(formValue, ""));
      var delivered := if SubmitRoute(formValue, enc) == "/" then None else Some(q);
      StartEffect(p, delivered).search == (if q == "" then None else Some(q))
  {
    var q := Trim(Coalesce(formValue, ""));
    var route := SubmitRoute(formValue, enc);
    if q == "" {
      assert route == "/";
      NoParamNoQuery(p);
    } else {
      assert route != "/";
      TrimIdempotent(Coalesce(formValue, ""));
      TrimmedParamIsQuery(q, p);
    }
  }

  lemma NoParamNoQuery(p: PageState)
    ensures StartEffect(p, None).search == None
  {
    assert TrimmedQuery(None) == Trim("");
  }

  lemma TrimmedParamIsQuery(q: string, p: PageState)
    requires q != "" && Trim(q) == q
    ensures StartEffect(p, Some(q)).search == Some(q)
  {
    assert TrimmedQuery(Some(q)) == q;
  }
}

=== FILE: common.dfy ===
/**
 * Shared wrappers, and the three JavaScript operators the adapters apply to
 * values that may be missing from a JSON response: truthiness, `??` and `||`.
 * A JSON field that is absent or `null` is `None`.
 */
module Common {

  datatype Option<+T> = None | Some(value: T)

  datatype Result<+T, +E> = Ok(value: T) | Err(error: E)

  /** JavaScript truthiness of a possibly missing string: `undefined`, `null` and `""` are falsy. */
  predicate Truthy(s: Option<string>)
  {
    s.Some? && s.value != ""
  }

  /** `a ?? b`: only a missing value gives way; an empty string is kept. */
  function Coalesce<T>(a: Option<T>, b: T): T
  {
    match a
    case Some(v) => v
    case None => b
  }

  /** `a || b` on possibly missing strings: every falsy left operand, `""` included, gives way. */
  function Or(a: Option<string>, b: Option<string>): Option<string>
  {
    if Truthy(a) then a else b
  }
}

=== FILE: js_text.dfy ===
/**
 * `String.prototype.trim` (ECMA-262, section 22.1.3.32, TrimString with
 * where = start+end): strips the WhiteSpace and LineTerminator code points
 * from both ends of a string.
 */
module JsText {

  /** The WhiteSpace (TAB, VT, FF, ZWNBSP and every Zs code point) and LineTerminator (LF, CR, LS, PS) code points. */
  predicate IsTrimmable(c: char)
  {
    var n := c as int;
    || n == 0x09 || n == 0x0A || n == 0x0B || n == 0x0C || n == 0x0D
    || n == 0x20 || n == 0xA0 || n == 0x1680 || (0x2000 <= n <= 0x200A)
    || n == 0x2028 || n == 0x2029 || n == 0x202F || n == 0x205F
    || n == 0x3000 || n == 0xFEFF
  }

  predicate AllTrimmable(s: string)
  {
    forall i :: 0 <= i < |s| ==> IsTrimmable(s[i])
  }

  /** Drops the leading trimmable code points: what remains is a suffix that starts with a kept character. */
  function TrimStart(s: string): (r: string)
    ensures |r| <= |s| && r == s[|s| - |r|..]
    ensures forall i :: 0 <= i < |s| - |r| ==> IsTrimmable(s[i])
    ensures r == [] || !IsTrimmable(r[0])
  {
    if |s| > 0 && IsTrimmable(s[0]) then TrimStart(s[1..]) else s
  }

  /** Drops the trailing trimmable code points: what remains is a prefix that ends with a kept character. */
  function TrimEnd(s: string): (r: string)
    ensures |r| <= |s| && r == s[..|r|]
    ensures forall i :: |r| <= i < |s| ==> IsTrimmable(s[i])
    ensures r == [] || !IsTrimmable(r[|r| - 1])
  {
    if |s| > 0 && IsTrimmable(s[|s| - 1]) then TrimEnd(s[..|s| - 1]) else s
  }

  /**
   * `s.trim()`. The result is empty exactly when every code point of `s`
   * is trimmable; otherwise it neither starts nor ends with one.
   */
  function Trim(s: string): (r: string)
    ensures r == [] <==> AllTrimmable(s)
    ensures r != [] ==> !IsTrimmable(r[0]) && !IsTrimmable(r[|r| - 1])
  {
    var t := TrimStart(s);
    var r := TrimEnd(t);
    assert AllTrimmable(s) ==> t == [] by {
      if t != [] {
        assert t[0] == s[|s| - |t|];
      }
    }
    assert t != [] ==> r != [];
    assert r == [] ==> AllTrimmable(s) by {
      if r == [] {
        assert t == [];
      }
    }
    r
  }

  /** Trim cuts a contiguous slice out of `s`, and only trimmable code points lie outside it. */
  lemma TrimIsSlice(s: string) returns (start: nat)
    ensures start + |Trim(s)| <= |s|
    ensures Trim(s) == s[start..start + |Trim(s)|]
    ensures forall i :: 0 <= i < start ==> IsTrimmable(s[i])
    ensures forall i :: start + |Trim(s)| <= i < |s| ==> IsTrimmable(s[i])
  {
    var t := TrimStart(s);
    var r := TrimEnd(t);
    start := |s| - |t|;
    assert Trim(s) == r;
    assert r == s[start..start + |r|] by {
      assert t == s[start..];
      assert r == t[..|r|];
    }
    forall i | start + |r| <= i < |s| ensures IsTrimmable(s[i]) {
      assert s[i] == t[i - start];
    }
  }

  /** Trimming twice is trimming once. */
  lemma TrimIdempotent(s: string)
    ensures Trim(Trim(s)) == Trim(s)
  {
    var r := Trim(s);
    if r != [] {
      assert TrimStart(r) == r;
      assert TrimEnd(r) == r;
    }
  }
}

=== FILE: search_params.dfy ===
/**
 * The part of the WHATWG URL Standard the adapters rely on: a URLSearchParams
 * list of name/value pairs with its `get`, `set` and `delete` operations, the
 * application/x-www-form-urlencoded serializer (with the percent-encoding of
 * a single string left as a parameter `enc`), and the resolution of a plain
 * path reference against a base URL.
 */
module SearchParams {
  import opened Common

  /** A URLSearchParams list, in order; names may repeat. */
  type Pairs = seq<(string, string)>

  predicate Lacks(ps: Pairs, name: string)
  {
    forall i :: 0 <= i < |ps| ==> ps[i].0 != name
  }

  predicate DistinctNames(ps: Pairs)
  {
    forall i, j :: 0 <= i < j < |ps| ==> ps[i].0 != ps[j].0
  }

  function Names(ps: Pairs): seq<string>
  {
    seq(|ps|, i requires 0 <= i < |ps| => ps[i].0)
  }

  /** How many pairs carry the name. */
  function Count(ps: Pairs, name: string): (n: nat)
    ensures n == 0 <==> Lacks(ps, name)
  {
    if |ps| == 0 then 0
    else (if ps[0].0 == name then 1 else 0) + Count(ps[1..], name)
  }

  /** `get(name)`: the value of the first pair with that name. */
  function Get(ps: Pairs, name: string): (r: Option<string>)
    ensures r.None? <==> Lacks(ps, name)
  {
    if |ps| == 0 then None
    else if ps[0].0 == name then Some(ps[0].1)
    else Get(ps[1..], name)
  }

  /** `delete(name)`: removes every pair with that name and keeps the rest in order. */
  function Delete(ps: Pairs, name: string): (r: Pairs)
    ensures Lacks(r, name)
    ensures forall n :: n != name ==> Get(r, n) == Get(ps, n)
    ensures forall p :: p in r ==> p in ps
    ensures Lacks(ps, name) ==> r == ps
    ensures DistinctNames(ps) ==> DistinctNames(r)
  {
    if |ps| == 0 then []
    else if ps[0].0 == name then Delete(ps[1..], name)
    else
      var rest := Delete(ps[1..], name);
      assert forall p :: p in rest ==> p in ps[1..];
      assert DistinctNames(ps) ==> DistinctNames([ps[0]] + rest) by {
        if DistinctNames(ps) {
          forall i | 0 <= i < |rest| ensures rest[i].0 != ps[0].0 {
            assert rest[i] in rest;
          }
          PrependKeepsDistinct(ps[0], rest);
        }
      }
      [ps[0]] + rest
  }

  lemma PrependKeepsDistinct(p: (string, string), ps: Pairs)
    requires DistinctNames(ps) && Lacks(ps, p.0)
    ensures DistinctNames([p] + ps)
  {
    var r := [p] + ps;
    forall i, j | 0 <= i < j < |r| ensures r[i].0 != r[j].0 {
      if i > 0 {
        assert r[i] == ps[i - 1] && r[j] == ps[j - 1];
      }
    }
  }

  /**
   * `set(name, value)`: when the list holds the name, the first such pair
   * takes the new value in place and the others are removed; otherwise the
   * pair is appended.
   */
  function Set(ps: Pairs, name: string, value: string): (r: Pairs)
    ensures Get(r, name) == Some(value)
    ensures forall n :: n != name ==> Get(r, n) == Get(ps, n)
    ensures Count(r, name) == 1
    ensures forall p :: p in r ==> p in ps || p == (name, value)
    ensures Lacks(ps, name) ==> r == ps + [(name, value)]
  {
    if |ps| == 0 then [(name, value)]
    else if ps[0].0 == name then [(name, value)] + Delete(ps[1..], name)
    else
      var rest := Set(ps[1..], name, value);
      [ps[0]] + rest
  }

  /** `set` keeps the names of a list pairwise distinct. */
  lemma {:induction false} SetKeepsDistinct(ps: Pairs, name: string, value: string)
    requires DistinctNames(ps)
    ensures DistinctNames(Set(ps, name, value))
  {
    if |ps| > 0 && ps[0].0 == name {
      assert Lacks(ps[1..], name);
      assert Set(ps, name, value) == [(name, value)] + ps[1..];
      PrependKeepsDistinct((name, value), ps[1..]);
    } else if |ps| > 0 {
      var rest := Set(ps[1..], name, value);
      SetKeepsDistinct(ps[1..], name, value);
      assert Lacks(rest, ps[0].0) by {
        forall i | 0 <= i < |rest| ensures rest[i].0 != ps[0].0 {
          assert rest[i] in rest;
          if rest[i] != (name, value) {
            assert rest[i] in ps[1..];
          }
        }
      }
      PrependKeepsDistinct(ps[0], rest);
    }
  }

  /** On a list with distinct names, `set` of a name already present keeps every name where it was. */
  lemma {:induction false} SetKeepsNamesInPlace(ps: Pairs, name: string, value: string)
    requires DistinctNames(ps)
    ensures !Lacks(ps, name) ==> Names(Set(ps, name, value)) == Names(ps)
  {
    if !Lacks(ps, name) {
      var r := Set(ps, name, value);
      assert ps == [ps[0]] + ps[1..];
      NamesCons(ps[0], ps[1..]);
      if ps[0].0 == name {
        assert Lacks(ps[1..], name);
        assert r == [(name, value)] + ps[1..];
        NamesCons((name, value), ps[1..]);
      } else {
        var rest := Set(ps[1..], name, value);
        assert r == [ps[0]] + rest;
        assert !Lacks(ps[1..], name);
        SetKeepsNamesInPlace(ps[1..], name, value);
        NamesCons(ps[0], rest);
      }
    }
  }

  lemma NamesCons(p: (string, string), ps: Pairs)
    ensures Names([p] + ps) == [p.0] + Names(ps)
  {
  }

  /**
   * Applies `set` for every entry in order, as
   * `Object.entries(params).forEach(... set ...)` does: the last entry's value
   * is what its name reads back, and names no entry carries are untouched.
   */
  function SetAll(acc: Pairs, entries: Pairs): (r: Pairs)
    ensures |entries| > 0 ==> Get(r, entries[|entries| - 1].0) == Some(entries[|entries| - 1].1)
    ensures forall n :: Lacks(entries, n) ==> Get(r, n) == Get(acc, n)
    ensures DistinctNames(entries) ==> forall i :: 0 <= i < |entries| ==> Get(r, entries[i].0) == Some(entries[i].1)
    decreases |entries|
  {
    if |entries| == 0 then acc
    else
      var r := SetAll(Set(acc, entries[0].0, entries[0].1), entries[1..]);
      assert |entries| > 1 ==> entries[1..][|entries| - 2] == entries[|entries| - 1];
      assert forall n :: Lacks(entries, n) ==> Lacks(entries[1..], n) && entries[0].0 != n;
      assert DistinctNames(entries) ==> Lacks(entries[1..], entries[0].0) && DistinctNames(entries[1..]) by {
        if DistinctNames(entries) {
          forall i | 0 <= i < |entries[1..]| ensures entries[1..][i].0 != entries[0].0 {
            assert entries[1..][i] == entries[i + 1];
          }
        }
      }
      assert forall i :: 1 <= i < |entries| ==> entries[i] == entries[1..][i - 1];
      r
  }

  /** With pairwise distinct names, setting each entry in turn just appends them. */
  lemma {:induction false} SetAllAppends(acc: Pairs, entries: Pairs)
    requires DistinctNames(acc + entries)
    ensures SetAll(acc, entries) == acc + entries
    decreases |entries|
  {
    if |entries| > 0 {
      var all := acc + entries;
      assert Lacks(acc, entries[0].0) by {
        forall i | 0 <= i < |acc| ensures acc[i].0 != entries[0].0 {
          assert all[i] == acc[i] && all[|acc|] == entries[0];
        }
      }
      var acc' := acc + [entries[0]];
      assert Set(acc, entries[0].0, entries[0].1) == acc';
      assert acc' + entries[1..] == all;
      SetAllAppends(acc', entries[1..]);
    }
  }

  /** One serialized pair, `name=value`. */
  function EncodePair(p: (string, string), enc: string -> string): string
  {
    enc(p.0) + "=" + enc(p.1)
  }

  /** The application/x-www-form-urlencoded serializer: pairs joined by `&`. */
  function Serialize(ps: Pairs, enc: string -> string): (r: string)
    ensures r == "" <==> |ps| == 0
    ensures |ps| == 1 ==> r == EncodePair(ps[0], enc)
  {
    if |ps| == 0 then ""
    else if |ps| == 1 then EncodePair(ps[0], enc)
    else EncodePair(ps[0], enc) + "&" + Serialize(ps[1..], enc)
  }

  /** Serializing two non-empty lists back to back joins their serializations with `&`. */
  lemma {:induction false} SerializeConcat(a: Pairs, b: Pairs, enc: string -> string)
    requires |a| > 0 && |b| > 0
    ensures Serialize(a + b, enc) == Serialize(a, enc) + "&" + Serialize(b, enc)
    decreases |a|
  {
    assert (a + b)[0] == a[0];
    if |a| > 1 {
      assert (a + b)[1..] == a[1..] + b;
      SerializeConcat(a[1..], b, enc);
    } else {
      assert (a + b)[1..] == b;
    }
  }

  /** A URL after parsing: origin (scheme and host), path and query list. */
  datatype Url = Url(origin: string, path: string, query: Pairs)

  /**
   * The URL serializer for these URLs: origin and path, then `?` and the
   * serialized list, the `?` being left out exactly when the list is empty.
   */
  function Href(u: Url, enc: string -> string): (r: string)
    ensures |u.query| == 0 <==> r == u.origin + u.path
    ensures |u.query| > 0 ==> |r| > |u.origin + u.path| && r[|u.origin + u.path|] == '?'
    ensures |u.query| > 0 ==> r[|u.origin + u.path| + 1..] == Serialize(u.query, enc)
    ensures r[..|u.origin + u.path|] == u.origin + u.path
  {
    u.origin + u.path + (if |u.query| == 0 then "" else "?" + Serialize(u.query, enc))
  }

  predicate IsPlainPathChar(c: char)
  {
    ('a' <= c <= 'z') || ('A' <= c <= 'Z') || ('0' <= c <= '9') || c == '-' || c == '_' || c == '/'
  }

  /**
   * The references resolved here: non-empty paths of letters, digits, `-`,
   * `_` and `/`, not starting with `//` (which would name a host).
   */
  predicate PlainPathRef(ref: string)
  {
    && |ref| > 0
    && (forall i :: 0 <= i < |ref| ==> IsPlainPathChar(ref[i]))
    && !(|ref| >= 2 && ref[0] == '/' && ref[1] == '/')
  }

  /** The base path up to and including its last `/` (the base path with its last segment shortened away). */
  function Directory(path: string): (r: string)
    ensures |r| <= |path| && r == path[..|r|]
    ensures r == [] || r[|r| - 1] == '/'
    ensures forall i :: |r| <= i < |path| ==> path[i] != '/'
  {
    if |path| == 0 then []
    else if path[|path| - 1] == '/' then path
    else Directory(path[..|path| - 1])
  }

  /**
   * `new URL(ref, base)` for a plain path reference: a reference that
   * starts with `/` replaces the whole base path; any other reference
   * replaces only the base path's last segment. The base query is dropped.
   */
  function Resolve(base: Url, ref: string): (u: Url)
    requires PlainPathRef(ref)
    ensures u.origin == base.origin && u.query == []
    ensures ref[0] == '/' ==> u.path == ref
    ensures ref[0] != '/' && |base.path| > 0 && base.path[|base.path| - 1] == '/' ==> u.path == base.path + ref
  {
    Url(base.origin, if ref[0] == '/' then ref else Directory(base.path) + ref, [])
  }
}

=== FILE: server_adapter.dfy ===
/**
 * The server-side adapter: builds the request URL, and reshapes the JSON of
 * the `search` and `videos` endpoints into the app's own records. A non-ok
 * status, a rejected fetch, or a response the code dereferences without a
 * guard (an item with no `id` object, a kept item with no `snippet`) makes
 * the operation throw; that is `Err` here.
 */
module YouTubeServer {
  import opened Common
  import opened SearchParams
  import opened YouTubeApi

  datatype SearchVideo = SearchVideo(
    videoId: string,
    title: Option<string>,
    thumbnailUrl: string,
    channelTitle: Option<string>,
    publishedAt: Option<string>)

  datatype VideoDetail = VideoDetail(
    title: Option<string>,
    description: Option<string>,
    channelTitle: Option<string>,
    publishedAt: Option<string>)

  /** Why an operation throws: a non-ok status, a rejected fetch, or a TypeError on a missing object. */
  datatype AdapterError = HttpStatus(status: int) | Network | Malformed

  // ----- Request construction -----

  /**
   * The query list `buildUrl` ends with: every caller parameter set in
   * entry order, then `key` set last, so it overrides a caller's `key`.
   * A `Record` has distinct names, hence the precondition.
   */
  function BuildQuery(params: Pairs, apiKey: string): (q: Pairs)
    requires DistinctNames(params)
    ensures Get(q, "key") == Some(apiKey)
    ensures forall n :: n != "key" ==> Get(q, n) == Get(params, n)
    ensures DistinctNames(q)
    ensures Lacks(params, "key") ==> q == params + [("key", apiKey)]
    ensures !Lacks(params, "key") ==> Names(q) == Names(params)
  {
    SetAllAppends([], params);
    assert [] + params == params;
    SetKeepsDistinct(params, "key", apiKey);
    SetKeepsNamesInPlace(params, "key", apiKey);
    Set(SetAll([], params), "key", apiKey)
  }

  /** The base URL the code resolves against, without a trailing slash. */
  const ApiBase := Url(ApiOrigin, ApiPath, [])

  /**
   * `buildUrl` as written: `new URL(path, YOUTUBE_API_BASE)` with `path`
   * starting with `/`, which replaces the whole base path.
   */
  function RequestAsWritten(path: string, params: Pairs, apiKey: string): (u: Url)
    requires PlainPathRef(path) && DistinctNames(params)
    ensures u.origin == ApiOrigin
    ensures path[0] == '/' ==> u.path == path
    ensures Get(u.query, "key") == Some(apiKey)
    ensures forall n :: n != "key" ==> Get(u.query, n) == Get(params, n)
  {
    Resolve(ApiBase, path).(query := BuildQuery(params, apiKey))
  }

  /** The search call as written asks for `/search` on the host, not for the Data API's `/youtube/v3/search`. */
  lemma AsWrittenSearchMissesApiPath(q: string, apiKey: string)
    ensures RequestAsWritten("/search", SearchParamsFor(q), apiKey).path == "/search"
    ensures RequestAsWritten("/search", SearchParamsFor(q), apiKey).path != ApiPath + "/search"
  {
    SearchParamsDistinct(q);
    assert PlainPathRef("/search");
    var p := RequestAsWritten("/search", SearchParamsFor(q), apiKey).path;
    assert |p| != |ApiPath + "/search"|;
  }

  /** The base as a directory: with the trailing slash a relative reference lands beneath `/youtube/v3/`. */
  const ApiBaseDir := Url(ApiOrigin, ApiPath + "/", [])

  /**
   * `buildUrl` corrected: the endpoint name (`search`, `videos`) is resolved
   * as a relative reference against the base directory, so the request
   * stays under the Data API path.
   */
  function Request(endpoint: string, params: Pairs, apiKey: string): (u: Url)
    requires PlainPathRef(endpoint) && endpoint[0] != '/'
    requires DistinctNames(params)
    ensures u.origin == ApiOrigin && u.path == ApiPath + "/" + endpoint
    ensures Get(u.query, "key") == Some(apiKey)
    ensures forall n :: n != "key" ==> Get(u.query, n) == Get(params, n)
    ensures DistinctNames(u.query)
  {
    Resolve(ApiBaseDir, endpoint).(query := BuildQuery(params, apiKey))
  }

  /** The parameters `searchVideos` passes to `buildUrl`, in entry order. */
  function SearchParamsFor(q: string): Pairs
  {
    [("part", "snippet"), ("type", "video"), ("maxResults", "25"), ("q", q)]
  }

  lemma SearchParamsDistinct(q: string)
    ensures DistinctNames(SearchParamsFor(q)) && Lacks(SearchParamsFor(q), "key")
  {
  }

  /** The parameters `getVideoDetail` passes to `buildUrl`. */
  function DetailParamsFor(id: string): Pairs
  {
    [("part", "snippet"), ("id", id)]
  }

  lemma DetailParamsDistinct(id: string)
    ensures DistinctNames(DetailParamsFor(id)) && Lacks(DetailParamsFor(id), "key")
  {
  }

  /** The request `searchVideos(q)` sends once the base path is kept. */
  function SearchRequest(q: string, apiKey: string): Url
  {
    SearchParamsDistinct(q);
    assert PlainPathRef("search");
    Request("search", SearchParamsFor(q), apiKey)
  }

  /** The request `searchVideos(q)` sends as written: `buildUrl("/search", ...)`. */
  function SearchRequestAsWritten(q: string, apiKey: string): Url
  {
    SearchParamsDistinct(q);
    assert PlainPathRef("/search");
    RequestAsWritten("/search", SearchParamsFor(q), apiKey)
  }

  /** The request `getVideoDetail(id)` sends as written: `buildUrl("/videos", ...)`. */
  function DetailRequestAsWritten(id: string, apiKey: string): Url
  {
    DetailParamsDistinct(id);
    assert PlainPathRef("/videos");
    RequestAsWritten("/videos", DetailParamsFor(id), apiKey)
  }

  /** The request `getVideoDetail(id)` sends once the base path is kept. */
  function DetailRequest(id: string, apiKey: string): Url
  {
    DetailParamsDistinct(id);
    assert PlainPathRef("videos");
    Request("videos", DetailParamsFor(id), apiKey)
  }

  /**
   * The search request always carries `part=snippet`, `type=video`,
   * `maxResults=25` and the query verbatim, then the key, on the Data API's
   * search endpoint.
   */
  lemma SearchRequestCarriesParams(q: string, apiKey: string)
    ensures SearchRequest(q, apiKey).path == ApiPath + "/" + "search"
    ensures SearchRequest(q, apiKey).query
         == [("part", "snippet"), ("type", "video"), ("maxResults", "25"), ("q", q), ("key", apiKey)]
  {
    SearchParamsDistinct(q);
    EndpointsArePlain();
    RequestCarries("search", SearchParamsFor(q), apiKey);
  }

  /** The detail request carries `part=snippet` and the id, then the key, on the Data API's videos endpoint. */
  lemma DetailRequestCarriesParams(id: string, apiKey: string)
    ensures DetailRequest(id, apiKey).path == ApiPath + "/" + "videos"
    ensures DetailRequest(id, apiKey).query == [("part", "snippet"), ("id", id), ("key", apiKey)]
  {
    DetailParamsDistinct(id);
    EndpointsArePlain();
    RequestCarries("videos", DetailParamsFor(id), apiKey);
  }

  lemma EndpointsArePlain()
    ensures PlainPathRef("search") && "search"[0] != '/'
    ensures PlainPathRef("videos") && "videos"[0] != '/'
  {
  }

  /** With no caller `key`, the corrected request is the endpoint under the API path with the key appended. */
  lemma RequestCarries(endpoint: string, params: Pairs, apiKey: string)
    requires PlainPathRef(endpoint) && endpoint[0] != '/'
    requires DistinctNames(params) && Lacks(params, "key")
    ensures Request(endpoint, params, apiKey).path == ApiPath + "/" + endpoint
    ensures Request(endpoint, params, apiKey).query == params + [("key", apiKey)]
  {
  }

  // ----- Shaping a search response -----

  /**
   * `thumbnails?.high?.url || thumbnails?.medium?.url ||
   * thumbnails?.default?.url || ""`: the first truthy url by size.
   */
  function ThumbnailUrl(t: Option<Thumbnails>): (r: string)
    ensures Truthy(UrlOf(t, High)) ==> r == UrlOf(t, High).value
    ensures !Truthy(UrlOf(t, High)) && Truthy(UrlOf(t, Medium)) ==> r == UrlOf(t, Medium).value
    ensures !Truthy(UrlOf(t, High)) && !Truthy(UrlOf(t, Medium)) && Truthy(UrlOf(t, Default)) ==> r == UrlOf(t, Default).value
    ensures r == "" <==> !Truthy(UrlOf(t, High)) && !Truthy(UrlOf(t, Medium)) && !Truthy(UrlOf(t, Default))
  {
    Coalesce(Or(Or(Or(UrlOf(t, High), UrlOf(t, Medium)), UrlOf(t, Default)), Some("")), "")
  }

  /** The filter `Boolean(item.id.videoId)`: a present, non-empty id. */
  predicate HasPlayableId(item: SearchItem)
  {
    item.id.Some? && Truthy(item.id.value.videoId)
  }

  /** `items.filter(...)`: the items with a playable id, in their original order. */
  function KeepPlayable(items: seq<SearchItem>): (r: seq<SearchItem>)
    ensures |r| <= |items|
    ensures forall x :: x in r ==> HasPlayableId(x) && x in items
    ensures forall x :: x in items && HasPlayableId(x) ==> x in r
  {
    if |items| == 0 then []
    else if HasPlayableId(items[0]) then [items[0]] + KeepPlayable(items[1..])
    else KeepPlayable(items[1..])
  }

  /** Filtering a concatenation filters each part: the kept items keep their relative order. */
  lemma {:induction false} KeepPlayableDistributes(a: seq<SearchItem>, b: seq<SearchItem>)
    ensures KeepPlayable(a + b) == KeepPlayable(a) + KeepPlayable(b)
    decreases |a|
  {
    if |a| > 0 {
      assert (a + b)[0] == a[0];
      assert (a + b)[1..] == a[1..] + b;
      KeepPlayableDistributes(a[1..], b);
    } else {
      assert a + b == b;
    }
  }

  predicate AllHaveIdObject(items: seq<SearchItem>)
  {
    forall i :: 0 <= i < |items| ==> items[i].id.Some?
  }

  predicate AllHaveSnippet(items: seq<SearchItem>)
  {
    forall i :: 0 <= i < |items| ==> items[i].snippet.Some?
  }

  /** An item the mapping step can destructure without a TypeError. */
  predicate Shapeable(item: SearchItem)
  {
    HasPlayableId(item) && item.snippet.Some?
  }

  /** The output record carries the item's id, title, channel and date unchanged, and its thumbnail choice. */
  predicate Copies(v: SearchVideo, item: SearchItem)
  {
    && Shapeable(item)
    && v.videoId == item.id.value.videoId.value
    && v.title == item.snippet.value.title
    && v.thumbnailUrl == ThumbnailUrl(item.snippet.value.thumbnails)
    && v.channelTitle == item.snippet.value.channelTitle
    && v.publishedAt == item.snippet.value.publishedAt
  }

  /** The `.map(...)` callback. */
  function ToSearchVideo(item: SearchItem): (v: SearchVideo)
    requires Shapeable(item)
    ensures v.videoId != ""
    ensures Copies(v, item)
  {
    var sn := item.snippet.value;
    SearchVideo(item.id.value.videoId.value, sn.title, ThumbnailUrl(sn.thumbnails), sn.channelTitle, sn.publishedAt)
  }

  /** `.map(...)` over the kept items: one record per item, same order. */
  function ToSearchVideos(items: seq<SearchItem>): (r: seq<SearchVideo>)
    requires forall x :: x in items ==> Shapeable(x)
    ensures |r| == |items|
    ensures forall i :: 0 <= i < |items| ==> Copies(r[i], items[i])
  {
    if |items| == 0 then []
    else [ToSearchVideo(items[0])] + ToSearchVideos(items[1..])
  }

  /**
   * The body of `searchVideos` after a successful fetch. Without `items` the
   * result is empty; otherwise every item is tested for a playable id (a
   * missing `id` object throws), and every kept item is mapped (a missing
   * `snippet` throws).
   */
  function ShapeSearch(body: SearchResponse): (r: Result<seq<SearchVideo>, AdapterError>)
    ensures body.items.None? ==> r == Ok([])
    ensures r.Err? ==> r.error == Malformed
    ensures r.Err? <==> body.items.Some? && (!AllHaveIdObject(body.items.value) || !AllHaveSnippet(KeepPlayable(body.items.value)))
    ensures r.Ok? ==> forall i :: 0 <= i < |r.value| ==> r.value[i].videoId != ""
    ensures r.Ok? && body.items.Some? ==>
      var kept := KeepPlayable(body.items.value);
      && |r.value| == |kept| <= |body.items.value|
      && forall i :: 0 <= i < |kept| ==> Copies(r.value[i], kept[i])
  {
    match body.items
    case None => Ok([])
    case Some(items) =>
      if !AllHaveIdObject(items) then Err(Malformed)
      else
        var kept := KeepPlayable(items);
        if !AllHaveSnippet(kept) then Err(Malformed)
        else
          assert forall x :: x in kept ==> Shapeable(x) by {
            forall x | x in kept ensures Shapeable(x) {
              var i :| 0 <= i < |kept| && kept[i] == x;
            }
          }
          Ok(ToSearchVideos(kept))
  }

  lemma {:induction false} ToSearchVideosDistributes(a: seq<SearchItem>, b: seq<SearchItem>)
    requires forall x :: x in a + b ==> Shapeable(x)
    ensures ToSearchVideos(a + b) == ToSearchVideos(a) + ToSearchVideos(b)
    decreases |a|
  {
    if |a| == 0 {
      assert a + b == b;
    } else {
      assert (a + b)[1..] == a[1..] + b;
      ToSearchVideosDistributes(a[1..], b);
    }
  }

  /** Shaping respects concatenation: the output of `a + b` is the output of `a` followed by that of `b`. */
  lemma ShapeSearchConcat(a: seq<SearchItem>, b: seq<SearchItem>)
    requires ShapeSearch(SearchResponse(Some(a))).Ok? && ShapeSearch(SearchResponse(Some(b))).Ok?
    ensures ShapeSearch(SearchResponse(Some(a + b)))
         == Ok(ShapeSearch(SearchResponse(Some(a))).value + ShapeSearch(SearchResponse(Some(b))).value)
  {
    KeepPlayableDistributes(a, b);
    var ka: seq<SearchItem>, kb: seq<SearchItem> := KeepPlayable(a), KeepPlayable(b);
    assert AllHaveIdObject(a + b) by {
      forall i | 0 <= i < |a + b| ensures (a + b)[i].id.Some? {
        if i < |a| { assert (a + b)[i] == a[i]; } else { assert (a + b)[i] == b[i - |a|]; }
      }
    }
    assert AllHaveSnippet(ka + kb) by {
      forall i | 0 <= i < |ka + kb| ensures (ka + kb)[i].snippet.Some? {
        if i < |ka| { assert (ka + kb)[i] == ka[i]; } else { assert (ka + kb)[i] == kb[i - |ka|]; }
      }
    }
    assert forall x :: x in ka + kb ==> Shapeable(x) by {
      forall x | x in ka + kb ensures Shapeable(x) {
        var i :| 0 <= i < |ka + kb| && (ka + kb)[i] == x;
      }
    }
    ToSearchVideosDistributes(ka, kb);
  }

  /**
   * What `searchVideos` makes of the fetch outcome `f`: a rejected fetch and
   * a non-ok status throw, each with its own error; an ok response is shaped.
   */
  predicate ReportsSearch(f: Fetched<SearchResponse>, r: Result<seq<SearchVideo>, AdapterError>)
  {
    && (r == Err(Network) <==> f.NetworkFailure?)
    && (f.Response? && !IsOk(f.status) <==> r.Err? && r.error.HttpStatus?)
    && (f.Response? && !IsOk(f.status) ==> r == Err(HttpStatus(f.status)))
    && (r.Ok? ==> f.Response? && IsOk(f.status))
    && (f.Response? && IsOk(f.status) && f.body.items.None? ==> r == Ok([]))
    && (f.Response? && IsOk(f.status) ==> r == ShapeSearch(f.body))
  }

  function SearchOutcome(f: Fetched<SearchResponse>): (r: Result<seq<SearchVideo>, AdapterError>)
    ensures ReportsSearch(f, r)
  {
    match f
    case NetworkFailure => Err(Network)
    case Response(status, body) =>
      if !IsOk(status) then Err(HttpStatus(status))
      else ShapeSearch(body)
  }

  /** `searchVideos(q)` as written, with the network call as the parameter `fetch`. */
  function SearchVideosAsWritten(q: string, apiKey: string, fetch: Url -> Fetched<SearchResponse>)
    : (r: Result<seq<SearchVideo>, AdapterError>)
    ensures ReportsSearch(fetch(SearchRequestAsWritten(q, apiKey)), r)
  {
    SearchOutcome(fetch(SearchRequestAsWritten(q, apiKey)))
  }

  /** `searchVideos(q)` sending the corrected request. */
  function SearchVideos(q: string, apiKey: string, fetch: Url -> Fetched<SearchResponse>)
    : (r: Result<seq<SearchVideo>, AdapterError>)
    ensures ReportsSearch(fetch(SearchRequest(q, apiKey)), r)
  {
    SearchOutcome(fetch(SearchRequest(q, apiKey)))
  }

  /** A network that answers 404 on `/search` and an empty ok body everywhere else. */
  function NotFoundOffApi(u: Url): Fetched<SearchResponse>
  {
    if u.path == "/search" then Response(404, SearchResponse(None))
    else Response(200, SearchResponse(None))
  }

  /**
   * The as-written search reads a different resource from the corrected one:
   * on the same network one throws the status and the other succeeds.
   */
  lemma AsWrittenSearchReadsAnotherResource(q: string, apiKey: string)
    ensures SearchVideosAsWritten(q, apiKey, NotFoundOffApi) == Err(HttpStatus(404))
    ensures SearchVideos(q, apiKey, NotFoundOffApi) == Ok([])
  {
    AsWrittenSearchMissesApiPath(q, apiKey);
    SearchRequestCarriesParams(q, apiKey);
    assert |SearchRequest(q, apiKey).path| != |"/search"|;
  }

  // ----- Shaping a videos response -----

  /**
   * The body of `getVideoDetail` after a successful fetch: `items?.[0]`, or
   * not found; the first item's snippet must exist.
   */
  function ShapeDetail(body: VideoListResponse): (r: Result<Option<VideoDetail>, AdapterError>)
    ensures r == Ok(None) <==> body.items.None? || |body.items.value| == 0
    ensures r.Err? <==> body.items.Some? && |body.items.value| > 0 && body.items.value[0].snippet.None?
    ensures r.Err? ==> r.error == Malformed
    ensures r.Ok? && r.value.Some? ==>
      var sn := body.items.value[0].snippet.value;
      && r.value.value.title == sn.title
      && r.value.value.description == sn.description
      && r.value.value.channelTitle == sn.channelTitle
      && r.value.value.publishedAt == sn.publishedAt
  {
    if body.items.None? || |body.items.value| == 0 then Ok(None)
    else
      match body.items.value[0].snippet
      case None => Err(Malformed)
      case Some(sn) => Ok(Some(VideoDetail(sn.title, sn.description, sn.channelTitle, sn.publishedAt)))
  }

  /** Only the first item matters: later items are ignored. */
  lemma DetailIgnoresLaterItems(first: VideoItem, rest: seq<VideoItem>)
    ensures ShapeDetail(VideoListResponse(Some([first] + rest))) == ShapeDetail(VideoListResponse(Some([first])))
  {
    assert ([first] + rest)[0] == first;
  }

  /**
   * What `getVideoDetail` makes of the fetch outcome `f`: a rejected fetch
   * and a non-ok status throw, each with its own error; an ok response is
   * shaped, and not found is `Ok(None)`.
   */
  predicate ReportsDetail(f: Fetched<VideoListResponse>, r: Result<Option<VideoDetail>, AdapterError>)
  {
    && (r == Err(Network) <==> f.NetworkFailure?)
    && (f.Response? && !IsOk(f.status) <==> r.Err? && r.error.HttpStatus?)
    && (f.Response? && !IsOk(f.status) ==> r == Err(HttpStatus(f.status)))
    && (r == Ok(None) <==> f.Response? && IsOk(f.status) && (f.body.items.None? || |f.body.items.value| == 0))
    && (f.Response? && IsOk(f.status) ==> r == ShapeDetail(f.body))
  }

  function DetailOutcome(f: Fetched<VideoListResponse>): (r: Result<Option<VideoDetail>, AdapterError>)
    ensures ReportsDetail(f, r)
  {
    match f
    case NetworkFailure => Err(Network)
    case Response(status, body) =>
      if !IsOk(status) then Err(HttpStatus(status))
      else ShapeDetail(body)
  }

  /** `getVideoDetail(id)` as written, with the network call as the parameter `fetch`. */
  function GetVideoDetailAsWritten(id: string, apiKey: string, fetch: Url -> Fetched<VideoListResponse>)
    : (r: Result<Option<VideoDetail>, AdapterError>)
    ensures ReportsDetail(fetch(DetailRequestAsWritten(id, apiKey)), r)
  {
    DetailOutcome(fetch(DetailRequestAsWritten(id, apiKey)))
  }

  /** `getVideoDetail(id)` sending the corrected request. */
  function GetVideoDetail(id: string, apiKey: string, fetch: Url -> Fetched<VideoListResponse>)
    : (r: Result<Option<VideoDetail>, AdapterError>)
    ensures ReportsDetail(fetch(DetailRequest(id, apiKey)), r)
  {
    DetailOutcome(fetch(DetailRequest(id, apiKey)))
  }
}

=== FILE: youtube_api.dfy ===
/**
 * The YouTube Data API v3 response shapes both adapters read, with every
 * field optional, as the JSON may omit any of them, and the outcome of one
 * `fetch` call.
 */
module YouTubeApi {
  import opened Common

  const ApiOrigin := "https://www.googleapis.com"
  const ApiPath := "/youtube/v3"

  datatype Thumbnail = Thumbnail(url: Option<string>)

  datatype Thumbnails = Thumbnails(high: Option<Thumbnail>, medium: Option<Thumbnail>, default: Option<Thumbnail>)

  datatype Size = High | Medium | Default

  /** `thumbnails?.<size>?.url`. */
  function UrlOf(t: Option<Thumbnails>, size: Size): Option<string>
  {
    match t
    case None => None
    case Some(ts) =>
      var th := match size
        case High => ts.high
        case Medium => ts.medium
        case Default => ts.default;
      match th
      case None => None
      case Some(Thumbnail(url)) => url
  }

  /** One entry of a `search` response: `id.videoId` is missing for channels and playlists. */
  datatype SearchId = SearchId(videoId: Option<string>)

  datatype SearchSnippet = SearchSnippet(
    title: Option<string>,
    thumbnails: Option<Thumbnails>,
    channelTitle: Option<string>,
    publishedAt: Option<string>)

  datatype SearchItem = SearchItem(id: Option<SearchId>, snippet: Option<SearchSnippet>)

  datatype SearchResponse = SearchResponse(items: Option<seq<SearchItem>>)

  /** One entry of a `videos` response. */
  datatype VideoSnippet = VideoSnippet(
    title: Option<string>,
    description: Option<string>,
    channelTitle: Option<string>,
    publishedAt: Option<string>)

  datatype VideoItem = VideoItem(id: Option<string>, snippet: Option<VideoSnippet>)

  datatype VideoListResponse = VideoListResponse(items: Option<seq<VideoItem>>)

  /**
   * What one `fetch` yields: a response with its status and parsed JSON
   * body, or a rejected promise. The network is a function from the request
   * URL, taken as parsed, to this outcome.
   */
  datatype Fetched<+B> = Response(status: int, body: B) | NetworkFailure

  /** `response.ok`: the status lies in 200..299 (the Fetch Standard's "ok status"). */
  predicate IsOk(status: int)
  {
    200 <= status <= 299
  }
}
